=== FILE: README.md ===
# ASCII Tetris engine — a Dafny model

This project models the game-state engine of the PotatOS text-mode Tetris
(`tetris.c`) and proves properties of it. The engine is a deterministic state
machine over a `w` x `h` grid:

- a 32-bit linear congruential generator picks pieces from a six-entry catalog;
- a hit test decides whether the falling piece collides with the walls, the
  floor or the locked cells;
- sideways moves and rotation are tried and rolled back on collision;
- gravity either drops the piece a row or locks it and spawns the next one;
- a line sweep removes full rows, compacting the rows above, with points that
  double per clear;
- a level table maps the score to a level.

The board is a value (`seq<seq<char>>`, column-major like the source's
`game[x][y]`), the game state is an immutable record, and every transition is a
pure function. The generator's seed, a global in the source, is a field of the
state. The keyboard and the timer are replaced by a sequence of inputs, one per
pass of the outer loop: whether the gravity tick is due, and the keys waiting.

Modules, leaves first: `Lcg` (generator), `Shapes` (pieces, rotation, the two
tables), `Board` (grid, row compaction, occupant counts), `Results` (fault
outcome), `Collision` (hit test, lock), `Lines` (line sweep), `Compaction`
(a row-by-row reference for the sweep), `Levels` (level lookup), `Engine`
(game record and transitions), `EngineProperties` (multi-call properties),
`Session` (the command switch and the outer loop).

Notes on the code's behaviour:

- The default seed 12345 yields 87628868 on the first draw. That value selects
  catalog entry 2, the bar `"@@@@"`. On a 10-wide board the bar spawns at
  column 10/2 - 4/2 = 3 (`DefaultFirstSpawn`).
- The sideways bound of the hit test is checked for every cell of the piece's
  box, occupied or not (tetris.c:154). Only the floor and overlap checks are
  limited to occupied cells.
- Locking writes the board without a bounds check (tetris.c:195). Rotation can
  leave an occupied cell above the top edge, which the hit test accepts
  (tetris.c:160, 220). A later lock then writes row -1. The model makes such a
  write a fault, `Err(OffBoard(x, y))`, instead of dropping it
  (`RotatedBarLocksOffBoard` exhibits one).
- The command loop goes on applying keys after the game ends within the same
  pass (tetris.c:326-347). The model does the same.
- `'s'` applies gravity without a line sweep. Only the timed tick sweeps
  (tetris.c:321-322, 340-342).

## Model

| member | source | states |
|---|---|---|
| `Lcg.Next` | tetris.c:32-42 | the new seed is `(1664525*seed + 1013904223) mod 2^32`, although the body wraps the product and then the sum as unsigned arithmetic does |
| `Lcg.Draws` | tetris.c:36-42 | successive calls form the sequence `Next(seed), Next(Next(seed)), …`: each value is the generator applied to the previous one |
| `Lcg.PieceIndex` | tetris.c:173 | `random() % TETRIS_PIECES` is always a valid catalog index |
| `Lcg.DefaultSeedFirstDraw` | tetris.c:36-42 | from seed 12345 the first value is 87628868, and it selects catalog entry 2 |
| `Shapes.Piece` | tetris.c:55-58 | every catalog entry is a well-formed box (2–4 wide, 1–3 high, within the 5x5 array, each row `w` long) holding only `' '` and catalog symbols |
| `Levels.LevelTableAscending` | tetris.c:60-62 | the level table has 7 rows, starts at score 0, and its thresholds strictly increase |
| `Shapes.CHalf` | tetris.c:219-220 | C's `/ 2` truncates toward zero: the remainder has the dividend's sign and magnitude below 2 |
| `Shapes.CHalfOdd` | tetris.c:219-220 | truncating halving satisfies `CHalf(-a) == -CHalf(a)`, which Euclidean halving does not (`-3/2`) |
| `Shapes.Rotate` | tetris.c:203-215 | the rotated box is `h` wide and `w` high, its cell `[r][c]` is the old `[h-1-c][r]`, and it still holds only catalog cells |
| `Shapes.HalfTurn` | tetris.c:209-215 | two rotations mirror the box in both axes |
| `Shapes.FullTurn` | tetris.c:209-215 | four rotations give back the original piece |
| `Board.Empty` | tetris.c:77-85 | the initial grid has `w` columns of `h` cells, all `' '` |
| `Board.Fall` | tetris.c:243-257 | compacting at row `l` empties row 0, moves rows `0..l-1` down one, and leaves rows below `l` unchanged |
| `Board.FallFullRow` | tetris.c:246-256 | compacting at a full row removes exactly `w` occupied cells |
| `Board.OccupiedBound` | tetris.c:75-85 | a `w` x `h` board holds at most `w*h` occupied cells |
| `Collision.HitFrom` | tetris.c:148-168 | the early-return scan from box cell `(x, y)` reports a hit iff some cell at or after `(x, y)` in column-major order fails the test of lines 152-164 |
| `Collision.HitTest` | tetris.c:143-169 | collision iff a box column is off the sides, or an occupied cell is at or below the floor, or an occupied cell lands on a non-empty board cell; occupied cells above the top never collide |
| `Collision.LockFrom` | tetris.c:189-198 | the write loop from box cell `(x, y)` succeeds iff every later occupied cell is on the board; on success each such cell's symbol is at its position and every other cell is unchanged |
| `Collision.Lock` | tetris.c:184-199 | locking succeeds iff every occupied cell is on the board; it then writes exactly the piece's occupied cells with their symbols and keeps the board catalog-only |
| `Collision.ClearPieceIsPlaced` | tetris.c:154-163 | a non-colliding piece whose anchor row is not negative lies wholly on the board |
| `Collision.ClearPieceFits` | tetris.c:154-157 | a non-colliding piece's box lies between the side walls |
| `Lines.FallKeepsFullRows` | tetris.c:246-256 | after compaction at a full row `l`, rows `0..n` (n ≤ l) hold as many full rows as rows `0..n-1` did before |
| `Lines.FallKeepsLowerRows` | tetris.c:246-252 | rows below the compacted one keep their fullness |
| `Lines.CascadeClosedForm` | tetris.c:275-276 | adding the current points and doubling them, `k` times from `p`, totals `p*(2^k-1)` |
| `Lines.CheckFrom` | tetris.c:263-280 | the sweep from row `y` (rows below `y` not full) leaves no full row, clears exactly the full rows among `0..y`, and adds the doubling sum `p + 2p + ...` over its `k` clears |
| `Lines.CheckFromKeepsScannedRows` | tetris.c:263-280 | rows the scan has passed are never changed again |
| `Lines.CheckFromOccupied` | tetris.c:273-278 | each clear removes exactly `w` occupied cells |
| `Lines.CheckFromKeepsCatalog` | tetris.c:246-256 | the sweep keeps the board catalog-only |
| `Lines.CheckFromNoFullRow` | tetris.c:263-280 | on a board with no full row the sweep changes nothing |
| `Lines.CheckLines` | tetris.c:259-281 | a whole sweep leaves no full row, clears as many rows as were full on entry (at most `h`), and adds `100*(2^k-1)` |
| `Lines.ClearScores` | tetris.c:262-276 | 1, 2, 3 and 4 clears in one sweep score 100, 300, 700 and 1500 |
| `Lines.CheckLinesIdempotent` | tetris.c:259-281 | a second sweep clears nothing and adds nothing |
| `Compaction.CheckFromCompacts` | tetris.c:263-280 | after the sweep from row `y`, rows `0..y` are the non-full rows of `0..y` in order, under as many empty rows as were removed |
| `Compaction.CheckLinesCompacts` | tetris.c:259-281 | a whole sweep leaves the board's non-full rows in order at the bottom, with empty rows filling the top |
| `Levels.LevelScan` | tetris.c:286-296 | the scan stops at one more than the last table row whose threshold the score reaches |
| `Levels.LevelFor` | tetris.c:283-296 | the level is `1 + max{i : score ≥ levels[i].score}`, between 1 and 7 |
| `Levels.IntervalFor` | tetris.c:283-297 | the returned interval is the `nsec` of the table row whose threshold the score reaches and the next row's threshold it does not; it lies between 200000 and 1200000 |
| `Levels.LevelMonotone` | tetris.c:283-298 | a higher score never gives a lower level |
| `Levels.LevelBoundaries` | tetris.c:60-62 | scores 0, 1499, 1500, 8000, 20000, 40000, 75000 and 100000 give levels 1, 1, 2, 3, 4, 5, 6 and 7 |
| `Engine.Init` | tetris.c:67-86 | a fresh game has an empty board, score 0, level 1, is not over, and keeps the given seed |
| `Engine.NewBlock` | tetris.c:171-182 | a spawn advances the seed, takes the drawn catalog piece, anchors it at `(w/2 - bw/2, 0)`, leaves board and score alone, and sets game over iff the piece collides there |
| `Engine.Move` | tetris.c:330-339 | a sideways move either shifts x by exactly `dx` to a non-colliding position or leaves the state exactly as it was |
| `Engine.RotateTrial` | tetris.c:203-221 | the trial holds the rotated box with the anchor moved by the truncated half of each dimension's change; every other field is unchanged |
| `Engine.Rotate` | tetris.c:201-229 | rotation keeps the non-colliding trial or restores shape and anchor exactly |
| `Engine.Gravity` | tetris.c:231-241 | the piece falls one row when it can. Otherwise the lock succeeds iff the piece is on the board; it writes exactly the piece's occupied cells, then spawns. The score never changes |
| `Engine.CheckLines` | tetris.c:259-281 | the sweep changes only board and score, leaves no full row, and adds `100*(2^k-1)` for the `k` rows full on entry. The new rows equal the compaction reference: the non-full rows in order, under as many empty rows as were removed |
| `Engine.SetLevel` | tetris.c:283-298 | only the level changes, set to the level for the score, and the table interval for it is returned |
| `EngineProperties.AboveTopNeverCollides` | tetris.c:158-163 | a piece between the side walls whose occupied cells are all above row 0 never collides |
| `EngineProperties.SpawnOnEmptyBoard` | tetris.c:171-182 | on an empty board at least 4 wide and 3 high every piece spawns without ending the game |
| `EngineProperties.SpawnOnTinyBoardEndsGame` | tetris.c:171-182 | on a board under 2 wide or with no rows the spawn ends the game and leaves the board as it was |
| `EngineProperties.DefaultFirstSpawn` | tetris.c:171-182 | with seed 12345 on 10 x 20 the first piece is the bar at (3, 0) and the game goes on |
| `EngineProperties.MoveRoundTrip` | tetris.c:330-339 | a successful move from a non-colliding position is undone exactly by the opposite move |
| `EngineProperties.RotateTrialTwiceAnchor` | tetris.c:217-220 | two rotation trials return the anchor to its start |
| `EngineProperties.RotateTrialFourTimes` | tetris.c:203-221 | four rotation trials return the exact starting state |
| `EngineProperties.RotateTwice` | tetris.c:201-229 | two successful rotations return the anchor and turn the piece half way |
| `EngineProperties.RotateFourTimes` | tetris.c:201-229 | four successful rotations return the exact starting state |
| `EngineProperties.GravityFromClearPosition` | tetris.c:231-241 | gravity never faults for a non-colliding piece whose anchor row is not negative |
| `EngineProperties.RotateBar` | tetris.c:209-215 | the rotated bar is a 1-wide, 4-high column |
| `EngineProperties.BarRotatesAboveTop` | tetris.c:217-228 | the bar at (0, 0) on an empty 4 x 3 board rotates to (1, -1), above the top edge |
| `EngineProperties.Respawn` | tetris.c:171-182 | `k` spawns in a row keep the board, its size and well-formedness |
| `EngineProperties.RespawnFollowsDraws` | tetris.c:171-182 | after `k` spawns the seed is the `k`-th value of `Draws`, and the piece is catalog entry (that value modulo 6) |
| `EngineProperties.RotatedBarLocksOffBoard` | tetris.c:184-199 | gravity on that rotated bar locks it and writes cell (1, -1), off the board |
| `Session.Tick` | tetris.c:319-323 | the timed tick faults iff its gravity does. Otherwise it differs from the state after gravity only in board and score. The score rises by `100*(2^k-1)` for the `k` rows full after gravity. No full row is left, and the rows equal the compaction reference applied to the board after gravity |
| `Session.Command` | tetris.c:328-346 | `'q'` is `Move(g, -1)`, `'d'` is `Move(g, 1)`, `' '` is `Rotate` and `'s'` is `Gravity`. Unknown keys change nothing. No key changes score or level, and only `'s'` can touch the board, the seed or game over |
| `Session.Drain` | tetris.c:326-347 | the waiting keys never change the score; without `'s'` they leave board, seed and game over alone |
| `Session.DrainOne` | tetris.c:326-346 | draining a single key is that key's command |
| `Session.DrainSnoc` | tetris.c:326-346 | keys are applied in arrival order: the last key's command acts on the state the earlier keys left, and a fault stops the drain |
| `Session.Frame` | tetris.c:309-349 | with a due tick, one pass is the tick, then the drain, then `tetris_level`; a tick that faults ends the pass with that fault. Without a tick it is the drain, then `tetris_level`. A pass never lowers the score, never lowers a level that does not exceed the level for the score, and ends with the level matching the score |
| `Session.RunFrom` | tetris.c:309-349 | the loop does nothing once the game is over, never lowers the score, never lowers a level that does not exceed the level for the score, and keeps the state well-formed |
| `Session.RunFromSnoc` | tetris.c:309-349 | passes run in order: one more pass is the earlier run followed by `Frame` on its state, unless that state is over or faulted |
| `Session.FirstSpawn` | tetris.c:305-307 | the first spawn ends the game on a board under 2 wide or with no rows, and otherwise the board is at least 1 wide |
| `Session.Play` | tetris.c:300-349 | a run keeps the board `w` x `h` and ends either over or at least 1 wide; on a board under 2 wide or with no rows it ends at the first spawn |
| `Session.PlayNoInput` | tetris.c:300-307 | with no passes a run is the first spawn on the fresh board |
| `Session.PlaySnoc` | tetris.c:309-349 | a run over one more pass is the shorter run followed by `Frame`, unless the game is over by then or a fault stopped it |

## Left out

- `tetris_print` (tetris.c:99-141) and the final game-over message: text output only.
- `micro_sleep`/`io_wait` and the `count % 50` / `count % 350` pacing (tetris.c:45-51, 311-323): busy-wait timing. Each input says whether the tick is due.
- `getch2` (tetris.c:326): keyboard polling. Each input carries the keys waiting in that pass.
- `Session.Drain`: applies every key of the input. The source loop stops at the first code `getch2` returns that is not positive. With a signed `char` that includes every byte of 0x80 or more. That code is consumed, and the keys behind it wait for the next pass, after `tetris_level` and possibly a tick. Each input's keys are therefore the positive codes `getch2` returned before that pass's drain ended.
- `malloc`/`free` in `tetris_init` and `tetris_clean` (tetris.c:75-96): the board is a value.
- `Session.RunFrom`: the source loop runs until game over; the model stops when its finite input sequence ends.
- `Lines.CheckLines`: requires `w >= 1`. With no columns every row is vacuously full and the source's sweep never terminates on a board with at least one row. The loop never reaches it then, because the first spawn already ends the game (`Session.FirstSpawn`).
- `Levels.LevelFor`: the score is a `nat`, and the first table row has threshold 0. So the `break` on the first row never fires, and the level stored before the call never shows through.
- The interval `tetris_level` returns is computed (`Levels.IntervalFor`) but discarded, as in the source (tetris.c:348).
- C `int` overflow of the score or of the points `p`: mathematical integers are used. A sweep clears at most `h` rows (`Lines.CheckLines`).
- Board dimensions are `nat`. Negative `w`/`h` passed to `tetris_init` are not modelled.
- Before the first spawn, `t.current`, `t.x` and `t.y` are uninitialised in the source. The model puts catalog entry 0 at (0, 0); the first spawn overwrites all three.

=== FILE: board.dfy ===
/** The playing field: a `w` x `h` grid stored column by column,
    `cells[x][y]`, exactly as the source's `game[x][y]` (tetris.c:13-16,
    67-86), and the row compaction of `tetris_fall` (tetris.c:243-257). */
module Board {
  import opened Shapes

  type Cells = seq<seq<char>>

  /** `w` columns of `h` cells each. */
  ghost predicate Shaped(cells: Cells, w: nat, h: nat)
  {
    |cells| == w && forall x :: 0 <= x < w ==> |cells[x]| == h
  }

  /** Every cell is empty or carries a catalog symbol. */
  ghost predicate CatalogBoard(cells: Cells)
  {
    forall x, y :: 0 <= x < |cells| && 0 <= y < |cells[x]| ==> CatalogCell(cells[x][y])
  }

  /** `tetris_init`'s grid: every cell `' '`. */
  function Empty(w: nat, h: nat): (cells: Cells)
    ensures Shaped(cells, w, h) && CatalogBoard(cells)
    ensures forall x, y :: 0 <= x < w && 0 <= y < h ==> cells[x][y] == ' '
  {
    seq(w, x => seq(h, y => ' '))
  }

  /** Row `y` has no empty cell (the scan of tetris.c:265-272). */
  predicate RowFull(cells: Cells, w: nat, h: nat, y: int)
    requires Shaped(cells, w, h) && 0 <= y < h
  {
    forall x :: 0 <= x < w ==> cells[x][y] != ' '
  }

  /** One column after the row at index `l` is removed and an empty cell is
      pushed in at the top. */
  function FallColumn(col: seq<char>, l: nat): seq<char>
    requires l < |col|
  {
    [' '] + col[..l] + col[l + 1..]
  }

  /** `tetris_fall(t, l)`: rows `0..l-1` move down one, row 0 becomes
      empty, rows below `l` keep their contents. */
  function Fall(cells: Cells, w: nat, h: nat, l: nat): (r: Cells)
    requires Shaped(cells, w, h) && l < h
    ensures Shaped(r, w, h)
    ensures forall x :: 0 <= x < w ==> r[x][0] == ' '
    ensures forall x, y :: 0 <= x < w && 1 <= y <= l ==> r[x][y] == cells[x][y - 1]
    ensures forall x, y :: 0 <= x < w && l < y < h ==> r[x][y] == cells[x][y]
    ensures CatalogBoard(cells) ==> CatalogBoard(r)
  {
    seq(w, x requires 0 <= x < w => FallColumn(cells[x], l))
  }

  /** Number of occupied cells of one column. */
  function Count(col: seq<char>): nat
  {
    if |col| == 0 then 0 else Count(col[..|col| - 1]) + (if col[|col| - 1] != ' ' then 1 else 0)
  }

  /** Number of occupied cells of the first `n` columns. */
  function OccupiedUpTo(cells: Cells, n: nat): nat
    requires n <= |cells|
  {
    if n == 0 then 0 else OccupiedUpTo(cells, n - 1) + Count(cells[n - 1])
  }

  /** Number of occupied cells of the board. */
  function Occupied(cells: Cells): nat
  {
    OccupiedUpTo(cells, |cells|)
  }

  lemma {:induction false} CountAppend(a: seq<char>, b: seq<char>)
    ensures Count(a + b) == Count(a) + Count(b)
    decreases |b|
  {
    if |b| == 0 {
      assert a + b == a;
    } else {
      assert (a + b)[..|a + b| - 1] == a + b[..|b| - 1];
      CountAppend(a, b[..|b| - 1]);
    }
  }

  /** A column holds at most one occupied cell per row. */
  lemma {:induction false} CountBound(col: seq<char>)
    ensures Count(col) <= |col|
    decreases |col|
  {
    if |col| > 0 {
      CountBound(col[..|col| - 1]);
    }
  }

  /** Removing an occupied cell and adding an empty one loses one occupant. */
  lemma FallColumnCount(col: seq<char>, l: nat)
    requires l < |col| && col[l] != ' '
    ensures Count(FallColumn(col, l)) == Count(col) - 1
  {
    assert col == col[..l] + [col[l]] + col[l + 1..];
    CountAppend(col[..l] + [col[l]], col[l + 1..]);
    CountAppend(col[..l], [col[l]]);
    CountAppend([' '] + col[..l], col[l + 1..]);
    CountAppend([' '], col[..l]);
    assert Count([col[l]]) == 1 by { assert [col[l]][..0] == []; }
    assert Count([' ']) == 0 by { assert [' '][..0] == []; }
  }

  lemma {:induction false} OccupiedUpToShift(a: Cells, b: Cells, n: nat)
    requires n <= |a| && n <= |b|
    requires forall x :: 0 <= x < n ==> Count(a[x]) + 1 == Count(b[x])
    ensures OccupiedUpTo(a, n) + n == OccupiedUpTo(b, n)
    decreases n
  {
    if n > 0 {
      OccupiedUpToShift(a, b, n - 1);
    }
  }

  lemma {:induction false} OccupiedUpToBound(cells: Cells, w: nat, h: nat, n: nat)
    requires Shaped(cells, w, h) && n <= w
    ensures OccupiedUpTo(cells, n) <= n * h
    decreases n
  {
    if n > 0 {
      OccupiedUpToBound(cells, w, h, n - 1);
      CountBound(cells[n - 1]);
      assert (n - 1) * h + h == n * h;
    }
  }

  /** The board never holds more than `w * h` occupants. */
  lemma OccupiedBound(cells: Cells, w: nat, h: nat)
    requires Shaped(cells, w, h)
    ensures Occupied(cells) <= w * h
  {
    OccupiedUpToBound(cells, w, h, w);
  }

  /** Compacting a full row removes exactly `w` occupied cells: the measure
      that makes the line-clear loop terminate when `w >= 1`. */
  lemma FallFullRow(cells: Cells, w: nat, h: nat, l: nat)
    requires Shaped(cells, w, h) && l < h && RowFull(cells, w, h, l)
    ensures Occupied(Fall(cells, w, h, l)) + w == Occupied(cells)
  {
    var r := Fall(cells, w, h, l);
    forall x | 0 <= x < w
      ensures Count(r[x]) + 1 == Count(cells[x])
    {
      FallColumnCount(cells[x], l);
    }
    OccupiedUpToShift(r, cells, w);
  }
}

=== FILE: collision.dfy ===
/** Placing a piece on the board: the hit test of `tetris_hittest`
    (tetris.c:143-169) and the write of `tetris_print_block`
    (tetris.c:184-199). Both walk the piece's box column by column and,
    inside a column, row by row; `(x, y)` is the next box cell to visit. */
module Collision {
  import opened Shapes
  import opened Board
  import opened Results

  /** `(cx, cy)` is visited at or after `(x, y)` in the column-major scan. */
  predicate Pending(x: int, y: int, cx: int, cy: int)
  {
    cx > x || (cx == x && cy >= y)
  }

  predicate InBox(b: Block, cx: int, cy: int)
  {
    0 <= cx < b.w && 0 <= cy < b.h
  }

  predicate InRange(w: nat, h: nat, x: int, y: int)
  {
    0 <= x < w && 0 <= y < h
  }

  /** The test tetris.c:152-164 makes for box cell `(cx, cy)` of a piece
      anchored at `(px, py)`: the column lies off the sides (checked for
      every box cell), or the cell is occupied and lies below the floor or
      on a non-empty board cell. An occupied cell above the top edge
      (`Y < 0`) passes. */
  predicate CellHits(cells: Cells, w: nat, h: nat, b: Block, px: int, py: int, cx: int, cy: int)
    requires Shaped(cells, w, h) && WellFormed(b)
  {
    && InBox(b, cx, cy)
    && var X := px + cx;
       var Y := py + cy;
       || X < 0 || X >= w
       || (b.cells[cy][cx] != ' ' && (Y >= h || (0 <= X < w && Y >= 0 && cells[X][Y] != ' ')))
  }

  /** The scan of `tetris_hittest` from box cell `(x, y)` on, returning at
      the first cell that hits. */
  function HitFrom(cells: Cells, w: nat, h: nat, b: Block, px: int, py: int, x: nat, y: nat): (r: bool)
    requires Shaped(cells, w, h) && WellFormed(b)
    requires x <= b.w && y <= b.h
    ensures r <==> exists cx, cy :: Pending(x, y, cx, cy) && CellHits(cells, w, h, b, px, py, cx, cy)
    decreases b.w - x, b.h - y
  {
    if x == b.w then false
    else if y == b.h then HitFrom(cells, w, h, b, px, py, x + 1, 0)
    else CellHits(cells, w, h, b, px, py, x, y) || HitFrom(cells, w, h, b, px, py, x, y + 1)
  }

  /** Box column `cx` lands off the left or right side of the board. */
  predicate OffSides(w: nat, b: Block, px: int, cx: int)
  {
    0 <= cx < b.w && (px + cx < 0 || px + cx >= w)
  }

  /** Occupied box cell `(cx, cy)` lands at or below the floor. */
  predicate BelowFloor(h: nat, b: Block, px: int, py: int, cx: int, cy: int)
  {
    Filled(b, cx, cy) && py + cy >= h
  }

  /** Occupied box cell `(cx, cy)` lands on an occupied board cell. */
  predicate Overlaps(cells: Cells, w: nat, h: nat, b: Block, px: int, py: int, cx: int, cy: int)
    requires Shaped(cells, w, h)
  {
    Filled(b, cx, cy) && InRange(w, h, px + cx, py + cy) && cells[px + cx][py + cy] != ' '
  }

  /** `tetris_hittest` for piece `b` anchored at `(px, py)`: it reports a
      collision exactly when a box column is off the sides, an occupied
      cell is below the floor, or an occupied cell overlaps the board's
      contents; occupied cells above the top edge never collide. */
  function HitTest(cells: Cells, w: nat, h: nat, b: Block, px: int, py: int): (r: bool)
    requires Shaped(cells, w, h) && WellFormed(b)
    ensures r <==>
      || (exists cx :: OffSides(w, b, px, cx))
      || (exists cx, cy :: BelowFloor(h, b, px, py, cx, cy))
      || (exists cx, cy :: Overlaps(cells, w, h, b, px, py, cx, cy))
  {
    var r := HitFrom(cells, w, h, b, px, py, 0, 0);
    assert (exists cx :: OffSides(w, b, px, cx)) ==> r by {
      if cx :| OffSides(w, b, px, cx) {
        assert CellHits(cells, w, h, b, px, py, cx, 0);
      }
    }
    assert (exists cx, cy :: BelowFloor(h, b, px, py, cx, cy)) ==> r by {
      if cx, cy :| BelowFloor(h, b, px, py, cx, cy) {
        assert CellHits(cells, w, h, b, px, py, cx, cy);
      }
    }
    assert (exists cx, cy :: Overlaps(cells, w, h, b, px, py, cx, cy)) ==> r by {
      if cx, cy :| Overlaps(cells, w, h, b, px, py, cx, cy) {
        assert CellHits(cells, w, h, b, px, py, cx, cy);
      }
    }
    assert r ==> ((exists cx :: OffSides(w, b, px, cx))
                  || (exists cx, cy :: BelowFloor(h, b, px, py, cx, cy))
                  || (exists cx, cy :: Overlaps(cells, w, h, b, px, py, cx, cy))) by {
      if r {
        var cx, cy :| Pending(0, 0, cx, cy) && CellHits(cells, w, h, b, px, py, cx, cy);
        if px + cx < 0 || px + cx >= w {
          assert OffSides(w, b, px, cx);
        } else if py + cy >= h {
          assert BelowFloor(h, b, px, py, cx, cy);
        } else {
          assert Overlaps(cells, w, h, b, px, py, cx, cy);
        }
      }
    }
    r
  }

  /** Every occupied cell of the piece lies on the board. */
  ghost predicate Placed(w: nat, h: nat, b: Block, px: int, py: int)
  {
    forall cx, cy :: Filled(b, cx, cy) ==> InRange(w, h, px + cx, py + cy)
  }

  /** Board cell `(X, Y)` is covered by an occupied cell of the piece at
      `(px, py)` that the scan visits at or after `(x, y)`. */
  predicate Stamps(b: Block, px: int, py: int, x: int, y: int, X: int, Y: int)
  {
    Pending(x, y, X - px, Y - py) && Filled(b, X - px, Y - py)
  }

  /** The writes of `tetris_print_block` from box cell `(x, y)` on. A write
      off the board stops the scan with a fault. */
  function LockFrom(cells: Cells, w: nat, h: nat, b: Block, px: int, py: int, x: nat, y: nat): (r: Result<Cells>)
    requires Shaped(cells, w, h) && WellFormed(b)
    requires x <= b.w && y <= b.h
    ensures r.Ok? <==>
      forall cx, cy :: Pending(x, y, cx, cy) && Filled(b, cx, cy) ==> InRange(w, h, px + cx, py + cy)
    ensures r.Err? ==> !InRange(w, h, r.fault.x, r.fault.y)
    ensures r.Ok? ==> Shaped(r.value, w, h)
    ensures r.Ok? ==> forall X, Y :: 0 <= X < w && 0 <= Y < h ==>
      r.value[X][Y] == if Stamps(b, px, py, x, y, X, Y) then b.cells[Y - py][X - px] else cells[X][Y]
    decreases b.w - x, b.h - y
  {
    if x == b.w then Ok(cells)
    else if y == b.h then LockFrom(cells, w, h, b, px, py, x + 1, 0)
    else if b.cells[y][x] == ' ' then LockFrom(cells, w, h, b, px, py, x, y + 1)
    else
      var X, Y := px + x, py + y;
      if !InRange(w, h, X, Y) then
        assert Pending(x, y, x, y) && Filled(b, x, y);
        Err(OffBoard(X, Y))
      else LockFrom(cells[X := cells[X][Y := b.cells[y][x]]], w, h, b, px, py, x, y + 1)
  }

  /** `tetris_print_block`: it succeeds exactly when every occupied cell of
      the piece lies on the board, and then writes each occupied cell's
      symbol at its board position and leaves every other cell alone. */
  function Lock(cells: Cells, w: nat, h: nat, b: Block, px: int, py: int): (r: Result<Cells>)
    requires Shaped(cells, w, h) && WellFormed(b)
    ensures r.Ok? <==> Placed(w, h, b, px, py)
    ensures r.Err? ==> !InRange(w, h, r.fault.x, r.fault.y)
    ensures r.Ok? ==> Shaped(r.value, w, h)
    ensures r.Ok? ==> forall X, Y :: 0 <= X < w && 0 <= Y < h ==>
      r.value[X][Y] == if Filled(b, X - px, Y - py) then b.cells[Y - py][X - px] else cells[X][Y]
    ensures r.Ok? && CatalogBoard(cells) && CatalogCells(b) ==> CatalogBoard(r.value)
  {
    LockFrom(cells, w, h, b, px, py, 0, 0)
  }

  /** A piece that passes the hit test with its anchor at or below the top
      edge lies wholly on the board, so locking it cannot fault. */
  lemma ClearPieceIsPlaced(cells: Cells, w: nat, h: nat, b: Block, px: int, py: int)
    requires Shaped(cells, w, h) && WellFormed(b)
    requires !HitTest(cells, w, h, b, px, py) && py >= 0
    ensures Placed(w, h, b, px, py)
  {
    forall cx, cy | Filled(b, cx, cy)
      ensures InRange(w, h, px + cx, py + cy)
    {
      assert !OffSides(w, b, px, cx);
      assert !BelowFloor(h, b, px, py, cx, cy);
    }
  }

  /** A piece that passes the hit test has every box column on the board,
      so the board is at least as wide as the piece. */
  lemma ClearPieceFits(cells: Cells, w: nat, h: nat, b: Block, px: int, py: int)
    requires Shaped(cells, w, h) && WellFormed(b)
    requires !HitTest(cells, w, h, b, px, py)
    ensures 0 <= px && px + b.w <= w
  {
    assert !OffSides(w, b, px, 0);
    assert !OffSides(w, b, px, b.w - 1);
  }
}

=== FILE: compaction.dfy ===
/** A row-by-row description of what a line sweep leaves behind, and the
    proof that the cascade of `tetris_check_lines` (tetris.c:259-281)
    produces it: the rows that are not full keep their order and sink to
    the bottom, and empty rows fill the top. */
module Compaction {
  import opened Board
  import opened Lines

  type Row = seq<char>

  /** Row `y` of the column-major board, left to right. */
  function RowAt(cells: Cells, w: nat, h: nat, y: nat): (row: Row)
    requires Shaped(cells, w, h) && y < h
    ensures |row| == w && forall x :: 0 <= x < w ==> row[x] == cells[x][y]
  {
    seq(w, x requires 0 <= x < w => cells[x][y])
  }

  /** Rows `0 .. n-1`, top to bottom. */
  function RowsUpTo(cells: Cells, w: nat, h: nat, n: nat): (rows: seq<Row>)
    requires Shaped(cells, w, h) && n <= h
    ensures |rows| == n && forall y :: 0 <= y < n ==> rows[y] == RowAt(cells, w, h, y)
  {
    seq(n, y requires 0 <= y < n => RowAt(cells, w, h, y))
  }

  predicate Full(row: Row)
  {
    forall i :: 0 <= i < |row| ==> row[i] != ' '
  }

  /** The rows that are not full, in their original order. */
  function Kept(rows: seq<Row>): (kept: seq<Row>)
    ensures |kept| <= |rows|
  {
    if |rows| == 0 then []
    else Kept(rows[..|rows| - 1]) + (if Full(rows[|rows| - 1]) then [] else [rows[|rows| - 1]])
  }

  function EmptyRows(n: nat, w: nat): (rows: seq<Row>)
    ensures |rows| == n
  {
    seq(n, _ => seq(w, _ => ' '))
  }

  /** The reference result of a sweep over `rows`: as many empty rows as
      were full, then the other rows in order. */
  function Compacted(rows: seq<Row>, w: nat): (r: seq<Row>)
    ensures |r| == |rows|
  {
    EmptyRows(|rows| - |Kept(rows)|, w) + Kept(rows)
  }

  lemma {:induction false} KeptPrepend(a: Row, rows: seq<Row>)
    ensures Kept([a] + rows) == (if Full(a) then [] else [a]) + Kept(rows)
    decreases |rows|
  {
    if |rows| > 0 {
      assert ([a] + rows)[..|[a] + rows| - 1] == [a] + rows[..|rows| - 1];
      KeptPrepend(a, rows[..|rows| - 1]);
    } else {
      assert [a] + rows == [a];
      assert [a][..0] == [];
    }
  }

  lemma RowsUpToStep(cells: Cells, w: nat, h: nat, n: nat)
    requires Shaped(cells, w, h) && n < h
    ensures RowsUpTo(cells, w, h, n + 1) == RowsUpTo(cells, w, h, n) + [RowAt(cells, w, h, n)]
  {
  }

  /** Compaction at a full row `l` turns rows `0 .. l` into an empty row
      followed by the old rows `0 .. l-1`. */
  lemma FallRows(cells: Cells, w: nat, h: nat, l: nat)
    requires Shaped(cells, w, h) && l < h
    ensures RowsUpTo(Fall(cells, w, h, l), w, h, l + 1) == EmptyRows(1, w) + RowsUpTo(cells, w, h, l)
  {
    var f := Fall(cells, w, h, l);
    var lhs := RowsUpTo(f, w, h, l + 1);
    var rhs := EmptyRows(1, w) + RowsUpTo(cells, w, h, l);
    forall y | 0 <= y <= l
      ensures lhs[y] == rhs[y]
    {
      if y == 0 {
        assert lhs[0] == seq(w, _ => ' ');
      } else {
        assert lhs[y] == RowAt(cells, w, h, y - 1);
      }
    }
  }

  lemma KeptAppend(rows: seq<Row>, row: Row)
    ensures Kept(rows + [row]) == Kept(rows) + (if Full(row) then [] else [row])
  {
  }

  /** Compacting an empty row on top of `rows` gives the same as compacting
      `rows` with a full row underneath. */
  lemma CompactedFullStep(rows: seq<Row>, row: Row, w: nat)
    requires Full(row) && w >= 1
    ensures Compacted(EmptyRows(1, w) + rows, w) == Compacted(rows + [row], w)
  {
    var e := EmptyRows(1, w);
    KeptPrepend(e[0], rows);
    KeptAppend(rows, row);
    assert e == [e[0]];
    assert !Full(e[0]) by { assert e[0][0] == ' '; }
    var n := |rows| - |Kept(rows)|;
    assert EmptyRows(n, w) + e == EmptyRows(n + 1, w);
  }

  /** A row that is not full stays at the bottom of the compaction. */
  lemma CompactedKeepStep(rows: seq<Row>, row: Row, w: nat)
    requires !Full(row)
    ensures Compacted(rows, w) + [row] == Compacted(rows + [row], w)
  {
  }

  /** The sweep from row `y` upward leaves rows `0 .. y` compacted. */
  lemma {:induction false} CheckFromCompacts(cells: Cells, w: nat, h: nat, y: int, p: nat, score: nat)
    requires Shaped(cells, w, h) && w >= 1 && -1 <= y < h
    requires forall l :: y < l < h ==> !RowFull(cells, w, h, l)
    ensures var r := CheckFrom(cells, w, h, y, p, score);
      RowsUpTo(r.cells, w, h, y + 1) == Compacted(RowsUpTo(cells, w, h, y + 1), w)
    decreases Occupied(cells), y + 1
  {
    if y >= 0 {
      var before := RowsUpTo(cells, w, h, y);
      var row := RowAt(cells, w, h, y);
      RowsUpToStep(cells, w, h, y);
      if RowFull(cells, w, h, y) {
        FallFullRow(cells, w, h, y);
        FallKeepsLowerRows(cells, w, h, y);
        CheckFromCompacts(Fall(cells, w, h, y), w, h, y, 2 * p, score + p);
        FallRows(cells, w, h, y);
        CompactedFullStep(before, row, w);
      } else {
        assert !Full(row) by {
          var x :| 0 <= x < w && cells[x][y] == ' ';
          assert row[x] == ' ';
        }
        var r := CheckFrom(cells, w, h, y - 1, p, score);
        CheckFromCompacts(cells, w, h, y - 1, p, score);
        CheckFromKeepsScannedRows(cells, w, h, y - 1, p, score);
        RowsUpToStep(r.cells, w, h, y);
        assert RowAt(r.cells, w, h, y) == row;
        CompactedKeepStep(before, row, w);
      }
    }
  }

  /** A whole sweep leaves the board's rows compacted: its non-full rows in
      order at the bottom, empty rows above them. */
  lemma CheckLinesCompacts(cells: Cells, w: nat, h: nat, score: nat)
    requires Shaped(cells, w, h) && w >= 1
    ensures RowsUpTo(CheckLines(cells, w, h, score).cells, w, h, h) == Compacted(RowsUpTo(cells, w, h, h), w)
  {
    CheckFromCompacts(cells, w, h, h - 1, FirstClearPoints, score);
  }
}

=== FILE: engine.dfy ===
/** The game state and the engine's transitions (tetris.c:13-27, 67-86,
    171-241, 283-298): spawning, sideways moves, rotation and gravity. */
module Engine {
  import opened Lcg
  import opened Shapes
  import opened Board
  import opened Results
  import Collision
  import Lines
  import Compaction
  import Levels

  /** `struct tetris`, with the board as a value and the generator's seed
      held in the state instead of a global. `current` is the falling piece
      and `(x, y)` the board position of its box's top-left cell. */
  datatype Game = Game(
    w: nat, h: nat, board: Cells,
    level: nat, gameover: bool, score: nat,
    current: Block, x: int, y: int,
    seed: Word)

  /** The shape the source's structures always have: a `w` x `h` board and
      a well-formed piece, both holding only empty cells and catalog
      symbols. */
  ghost predicate Valid(g: Game)
  {
    && Shaped(g.board, g.w, g.h) && CatalogBoard(g.board)
    && WellFormed(g.current) && CatalogCells(g.current)
  }

  /** `tetris_hittest(t)`: the falling piece collides where it stands. */
  predicate Hits(g: Game)
    requires Valid(g)
  {
    Collision.HitTest(g.board, g.w, g.h, g.current, g.x, g.y)
  }

  /** The board part of `tetris_init`: an empty `w` x `h` board, level 1,
      score 0, not over. The falling piece is a placeholder until the first
      spawn replaces it. */
  function Init(w: nat, h: nat, seed: Word): (g: Game)
    ensures Valid(g) && g.w == w && g.h == h
    ensures g.score == 0 && g.level == 1 && !g.gameover && g.seed == seed
    ensures forall x, y :: 0 <= x < w && 0 <= y < h ==> g.board[x][y] == ' '
  {
    Game(w, h, Empty(w, h), 1, false, 0, Piece(0), 0, 0, seed)
  }

  /** `tetris_new_block`: draw the next value, take that catalog piece,
      centre it on the top row, and end the game if it collides there.
      The board and score are not touched; a game already over stays over. */
  function NewBlock(g: Game): (r: Game)
    requires Valid(g)
    ensures Valid(r)
    ensures r.seed == Next(g.seed)
    ensures r.current == Piece(PieceIndex(g.seed, PieceCount))
    ensures r.x == g.w / 2 - r.current.w / 2 && r.y == 0
    ensures r.gameover <==> g.gameover || Hits(r)
    ensures r.board == g.board && r.score == g.score && r.level == g.level
    ensures r.w == g.w && r.h == g.h
  {
    var b := Piece(PieceIndex(g.seed, PieceCount));
    var placed := g.(current := b, x := g.w / 2 - b.w / 2, y := 0, seed := Next(g.seed));
    if Hits(placed) then placed.(gameover := true) else placed
  }

  /** A sideways move by `dx` ('q' is -1, 'd' is +1): the piece shifts by
      exactly `dx` and then does not collide, or the state is left exactly
      as it was because the shifted piece would collide. */
  function Move(g: Game, dx: int): (r: Game)
    requires Valid(g)
    ensures Valid(r)
    ensures (r == g.(x := g.x + dx) && !Hits(r)) || (r == g && Hits(g.(x := g.x + dx)))
  {
    var shifted := g.(x := g.x + dx);
    if Hits(shifted) then g else shifted
  }

  /** The rotated trial piece of `tetris_rotate`, with the anchor moved by
      half the change of each dimension, rounded toward zero as C does. */
  function RotateTrial(g: Game): (t: Game)
    requires Valid(g)
    ensures Valid(t)
    ensures t.current == Shapes.Rotate(g.current)
    ensures t.x == g.x - CHalf(g.current.h - g.current.w)
    ensures t.y == g.y - CHalf(g.current.w - g.current.h)
    ensures t == g.(current := t.current, x := t.x, y := t.y)
  {
    var b := Shapes.Rotate(g.current);
    g.(current := b, x := g.x - CHalf(b.w - g.current.w), y := g.y - CHalf(b.h - g.current.h))
  }

  /** `tetris_rotate`: either the rotated trial is kept because it does not
      collide, or shape and anchor are restored exactly. */
  function Rotate(g: Game): (r: Game)
    requires Valid(g)
    ensures Valid(r)
    ensures (r == RotateTrial(g) && !Hits(r)) || (r == g && Hits(RotateTrial(g)))
  {
    var t := RotateTrial(g);
    if Hits(t) then g else t
  }

  /** `tetris_gravity`: the piece falls one row if it can; otherwise it is
      locked where it stands and the next piece is spawned. Locking a piece
      with an occupied cell off the board is a fault: the source's write
      there is unchecked. */
  function Gravity(g: Game): (r: Result<Game>)
    requires Valid(g)
    ensures r.Ok? ==> Valid(r.value) && r.value.score == g.score && r.value.w == g.w && r.value.h == g.h
    ensures !Hits(g.(y := g.y + 1)) ==> r == Ok(g.(y := g.y + 1))
    ensures Hits(g.(y := g.y + 1)) ==>
      (r.Ok? <==> Collision.Placed(g.w, g.h, g.current, g.x, g.y))
    ensures Hits(g.(y := g.y + 1)) && r.Ok? ==>
      && r.value == NewBlock(g.(board := r.value.board))
      && forall X, Y :: 0 <= X < g.w && 0 <= Y < g.h ==>
           r.value.board[X][Y] ==
             if Filled(g.current, X - g.x, Y - g.y) then g.current.cells[Y - g.y][X - g.x] else g.board[X][Y]
  {
    var down := g.(y := g.y + 1);
    if !Hits(down) then Ok(down)
    else
      match Collision.Lock(g.board, g.w, g.h, g.current, g.x, g.y)
      case Err(f) => Err(f)
      case Ok(cells) => Ok(NewBlock(g.(board := cells)))
  }

  /** `tetris_check_lines` applied to the game: full rows are cleared and
      scored, nothing else changes. */
  function CheckLines(g: Game): (r: Game)
    requires Valid(g) && g.w >= 1
    ensures Valid(r) && r == g.(board := r.board, score := r.score)
    ensures forall l :: 0 <= l < g.h ==> !RowFull(r.board, g.w, g.h, l)
    ensures r.score == g.score + Lines.FirstClearPoints * (Lines.Pow2(Lines.FullRows(g.board, g.w, g.h, g.h)) - 1)
    ensures Compaction.RowsUpTo(r.board, g.w, g.h, g.h)
      == Compaction.Compacted(Compaction.RowsUpTo(g.board, g.w, g.h, g.h), g.w)
  {
    var s := Lines.CheckLines(g.board, g.w, g.h, g.score);
    Compaction.CheckLinesCompacts(g.board, g.w, g.h, g.score);
    g.(board := s.cells, score := s.score)
  }

  /** `tetris_level`: store the level the score has reached and return
      that level's tick interval. */
  function SetLevel(g: Game): (r: (Game, nat))
    ensures r.0 == g.(level := r.0.level)
    ensures r.0.level == Levels.LevelFor(g.score) && r.1 == Levels.IntervalFor(g.score)
  {
    (g.(level := Levels.LevelFor(g.score)), Levels.IntervalFor(g.score))
  }
}

=== FILE: engine_properties.dfy ===
/** Properties of the engine's transitions that relate several calls or
    hold for whole families of states. */
module EngineProperties {
  import opened Lcg
  import opened Shapes
  import opened Results
  import opened Engine
  import Collision

  /** An occupied cell above the top edge never collides: a piece whose box
      columns are all on the board and whose occupied cells are all above
      row 0 passes the hit test whatever the board holds. */
  lemma AboveTopNeverCollides(g: Game)
    requires Valid(g)
    requires 0 <= g.x && g.x + g.current.w <= g.w
    requires forall cx, cy :: Filled(g.current, cx, cy) ==> g.y + cy < 0
    ensures !Hits(g)
  {
  }

  /** On an empty board at least 4 wide and 3 high every catalog piece
      spawns without collision, so the game goes on. */
  lemma SpawnOnEmptyBoard(g: Game)
    requires Valid(g) && !g.gameover && g.w >= 4 && g.h >= 3
    requires forall x, y :: 0 <= x < g.w && 0 <= y < g.h ==> g.board[x][y] == ' '
    ensures !NewBlock(g).gameover
  {
  }

  /** Every catalog piece is at least 2 wide and 1 high, so on a board
      narrower than 2 or with no rows the first spawn ends the game,
      leaving the board as it was. */
  lemma SpawnOnTinyBoardEndsGame(g: Game)
    requires Valid(g) && (g.w <= 1 || g.h == 0)
    ensures NewBlock(g).gameover && NewBlock(g).board == g.board
  {
  }

  /** With the default seed on the usual 10 x 20 board the first piece is
      the bar, anchored at column 3 of the top row, and the game goes on. */
  lemma DefaultFirstSpawn()
    ensures var r := NewBlock(Init(10, 20, DefaultSeed));
      && r.current == Blocks[2] && r.current.cells == ["@@@@"]
      && r.x == 3 && r.y == 0 && !r.gameover && r.seed == 87628868
  {
  }

  /** A sideways move that succeeded from a non-colliding position is
      undone exactly by the opposite move. */
  lemma MoveRoundTrip(g: Game, dx: int)
    requires Valid(g) && !Hits(g)
    requires Move(g, dx).x == g.x + dx
    ensures Move(Move(g, dx), -dx) == g
  {
  }

  /** Two rotation trials bring the anchor back: the shift of the second is
      the negation of the first because C's division truncates. */
  lemma RotateTrialTwiceAnchor(g: Game)
    requires Valid(g)
    ensures RotateTrial(RotateTrial(g)).x == g.x
    ensures RotateTrial(RotateTrial(g)).y == g.y
  {
  }

  /** Four rotation trials give back the state they started from. */
  lemma RotateTrialFourTimes(g: Game)
    requires Valid(g)
    ensures RotateTrial(RotateTrial(RotateTrial(RotateTrial(g)))) == g
  {
    var t2 := RotateTrial(RotateTrial(g));
    RotateTrialTwiceAnchor(g);
    RotateTrialTwiceAnchor(t2);
    FullTurn(g.current);
  }

  /** Two rotations that both succeed return the anchor to where it was and
      turn the piece half way round. */
  lemma RotateTwice(g: Game)
    requires Valid(g)
    requires !Hits(RotateTrial(g)) && !Hits(RotateTrial(Engine.Rotate(g)))
    ensures Engine.Rotate(Engine.Rotate(g)).x == g.x && Engine.Rotate(Engine.Rotate(g)).y == g.y
    ensures Engine.Rotate(Engine.Rotate(g)).current == Shapes.Rotate(Shapes.Rotate(g.current))
  {
  }

  /** Four rotations that all succeed give back the original state. */
  lemma RotateFourTimes(g: Game)
    requires Valid(g)
    requires !Hits(RotateTrial(g))
    requires !Hits(RotateTrial(Engine.Rotate(g)))
    requires !Hits(RotateTrial(Engine.Rotate(Engine.Rotate(g))))
    requires !Hits(RotateTrial(Engine.Rotate(Engine.Rotate(Engine.Rotate(g)))))
    ensures Engine.Rotate(Engine.Rotate(Engine.Rotate(Engine.Rotate(g)))) == g
  {
    RotateTrialFourTimes(g);
  }

  /** Gravity never faults for a piece that does not collide and whose
      anchor is on or below the top row. */
  lemma GravityFromClearPosition(g: Game)
    requires Valid(g) && !Hits(g) && g.y >= 0
    ensures Gravity(g).Ok?
  {
  }

  /** The bar stood upright. */
  const UprightBar: Block := Block(["@", "@", "@", "@"], 1, 4)

  lemma RotateBar()
    ensures Shapes.Rotate(Blocks[2]) == UprightBar
  {
    var t := Shapes.Rotate(Blocks[2]);
    forall r | 0 <= r < 4
      ensures t.cells[r] == "@"
    {
      assert t.cells[r][0] == Blocks[2].cells[0][r] == '@';
    }
  }

  /** The bar lying on the top row of an empty 4 x 3 board, where it spawns. */
  function BarOnTop(): (g: Game)
    ensures Valid(g)
  {
    Init(4, 3, DefaultSeed).(current := Blocks[2], x := 0, y := 0)
  }

  /** Rotating the bar at the top row stands it upright at (1, -1): the hit
      test accepts it because its top cell is above the board. */
  lemma BarRotatesAboveTop()
    ensures Engine.Rotate(BarOnTop()) == BarOnTop().(current := UprightBar, x := 1, y := -1)
  {
    var g := BarOnTop();
    RotateBar();
    var t := RotateTrial(g);
    assert t == g.(current := UprightBar, x := 1, y := -1);
    forall cx | 0 <= cx < t.current.w
      ensures !Collision.OffSides(g.w, t.current, t.x, cx)
    {
    }
    forall cx, cy | Filled(t.current, cx, cy)
      ensures !Collision.BelowFloor(g.h, t.current, t.x, t.y, cx, cy)
      ensures !Collision.Overlaps(g.board, g.w, g.h, t.current, t.x, t.y, cx, cy)
    {
    }
  }

  /** The unchecked write is reachable: after the rotation above, gravity
      cannot move the bar down (its bottom cell would leave the floor), and
      locking it where it stands writes row -1. */
  lemma RotatedBarLocksOffBoard()
    ensures Gravity(Engine.Rotate(BarOnTop())) == Err(OffBoard(1, -1))
  {
    BarRotatesAboveTop();
    var r := BarOnTop().(current := UprightBar, x := 1, y := -1);
    assert Collision.BelowFloor(r.h, r.current, r.x, r.y + 1, 0, 3);
  }

  /** `k` spawns in a row, with nothing in between. */
  function Respawn(g: Game, k: nat): (r: Game)
    requires Valid(g)
    ensures Valid(r) && r.board == g.board && r.w == g.w && r.h == g.h
    decreases k
  {
    if k == 0 then g else Respawn(NewBlock(g), k - 1)
  }

  /** The `k`-th spawn uses the `k`-th value of the generator: afterwards
      the seed is that value and the piece is that value modulo the catalog
      size. */
  lemma {:induction false} RespawnFollowsDraws(g: Game, k: nat)
    requires Valid(g) && k >= 1
    ensures Respawn(g, k).seed == Draws(g.seed, k)[k - 1]
    ensures Respawn(g, k).current == Piece(Draws(g.seed, k)[k - 1] % PieceCount)
    decreases k
  {
    if k > 1 {
      var n := NewBlock(g);
      RespawnFollowsDraws(n, k - 1);
      assert Draws(g.seed, k) == [Next(g.seed)] + Draws(n.seed, k - 1);
    }
  }
}

=== FILE: lcg.dfy ===
/** The linear congruential generator the game uses in place of a
    system random source: 32-bit unsigned state, multiplier 1664525,
    increment 1013904223 (tetris.c:32-42). */
module Lcg {

  const Multiplier: nat := 1664525
  const Increment: nat := 1013904223
  const Modulus: nat := 0x1_0000_0000

  /** The seed the program starts with when the host does not change it. */
  const DefaultSeed: Word := 12345

  /** A value of C's 32-bit `unsigned int`. */
  type Word = n: nat | n < 0x1_0000_0000

  /** Reduction to 32 bits, as unsigned arithmetic does after each operation. */
  function Wrap(n: nat): Word
  {
    n % Modulus
  }

  /** One step of the generator, computed the way the C expression is
      evaluated: the product wraps, then the sum wraps, and the final
      `% M` leaves a value already below 2^32 unchanged. The contract is
      the textbook single-reduction formula. */
  function Next(seed: Word): (r: Word)
    ensures r == (Multiplier * seed + Increment) % Modulus
  {
    var product := Wrap(Multiplier * seed);
    var sum := Wrap(product + Increment);
    assert sum == (Multiplier * seed + Increment) % Modulus by {
      WrapAdd(Multiplier * seed, Increment);
    }
    sum % Modulus
  }

  /** Wrapping an intermediate sum does not change the final residue. */
  lemma WrapAdd(a: nat, c: nat)
    ensures (Wrap(a) + c) % Modulus == (a + c) % Modulus
  {
  }

  /** The values returned by `n` successive calls starting from `seed`. */
  function Draws(seed: Word, n: nat): (r: seq<Word>)
    ensures |r| == n
    ensures n > 0 ==> r[0] == Next(seed)
    ensures forall i :: 0 <= i < n - 1 ==> r[i + 1] == Next(r[i])
    decreases n
  {
    if n == 0 then [] else [Next(seed)] + Draws(Next(seed), n - 1)
  }

  /** The catalog index chosen from one draw: `random() % TETRIS_PIECES`. */
  function PieceIndex(seed: Word, pieces: nat): (i: nat)
    requires pieces > 0
    ensures i < pieces
  {
    Next(seed) % pieces
  }

  /** With the default seed the first value is 87628868, which selects
      catalog entry 2 of six. */
  lemma DefaultSeedFirstDraw()
    ensures Next(DefaultSeed) == 87628868
    ensures PieceIndex(DefaultSeed, 6) == 2
  {
  }
}

=== FILE: levels.dfy ===
/** The level table (tetris.c:8-11, 60-65) and the lookup of
    `tetris_level` (tetris.c:283-298). */
module Levels {
  /** One row of the level table: the score at which the level starts and
      the tick interval configured for it. */
  datatype LevelRow = LevelRow(score: nat, nsec: nat)

  /** `levels[]`, ascending by score. */
  const LevelTable: seq<LevelRow> := [
    LevelRow(0, 1200000), LevelRow(1500, 900000), LevelRow(8000, 700000),
    LevelRow(20000, 500000), LevelRow(40000, 400000), LevelRow(75000, 300000),
    LevelRow(100000, 200000)
  ]

  /** `TETRIS_LEVELS`. */
  const LevelCount: nat := 7

  /** The level table starts at score 0 and its thresholds strictly increase. */
  lemma LevelTableAscending()
    ensures |LevelTable| == LevelCount
    ensures LevelTable[0].score == 0
    ensures forall i, j :: 0 <= i < j < LevelCount ==> LevelTable[i].score < LevelTable[j].score
  {
  }

  /** The loop of `tetris_level` from table row `i` on, with `level` the
      level set so far: every row whose threshold the score reaches sets
      the level to its 1-based index, and the first row it does not reach
      ends the scan. The result is one more than the last row reached. */
  function LevelScan(score: nat, i: nat, level: nat): (r: nat)
    requires i <= LevelCount
    requires forall j :: 0 <= j < i ==> LevelTable[j].score <= score
    requires i > 0 ==> level == i
    ensures 1 <= r <= LevelCount
    ensures forall j :: 0 <= j < LevelCount ==> (LevelTable[j].score <= score <==> j < r)
    decreases LevelCount - i
  {
    LevelTableAscending();
    if i == LevelCount then level
    else if score >= LevelTable[i].score then LevelScan(score, i + 1, i + 1)
    else level
  }

  /** The level for a score: one plus the highest table row whose threshold
      the score reaches. The score is never negative, so the first row
      (threshold 0) always applies and the level stored before the call
      never shows through. */
  function LevelFor(score: nat): (level: nat)
    ensures 1 <= level <= LevelCount
    ensures LevelTable[level - 1].score <= score
    ensures level < LevelCount ==> score < LevelTable[level].score
  {
    LevelScan(score, 0, 1)
  }

  /** The tick interval `tetris_level` returns for a score. */
  function IntervalFor(score: nat): (nsec: nat)
    ensures forall i ::
      (0 <= i < LevelCount && LevelTable[i].score <= score && (i + 1 < LevelCount ==> score < LevelTable[i + 1].score))
      ==> nsec == LevelTable[i].nsec
    ensures 200000 <= nsec <= 1200000
  {
    LevelTable[LevelFor(score) - 1].nsec
  }

  /** A higher score never gives a lower level. */
  lemma LevelMonotone(s1: nat, s2: nat)
    requires s1 <= s2
    ensures LevelFor(s1) <= LevelFor(s2)
  {
  }

  /** The table's boundaries: level `i + 1` starts exactly at threshold `i`. */
  lemma LevelBoundaries()
    ensures LevelFor(0) == 1 && LevelFor(1499) == 1 && LevelFor(1500) == 2
    ensures LevelFor(8000) == 3 && LevelFor(20000) == 4 && LevelFor(40000) == 5
    ensures LevelFor(75000) == 6 && LevelFor(100000) == 7
    ensures IntervalFor(0) == 1200000 && IntervalFor(100000) == 200000
  {
  }
}

=== FILE: lines.dfy ===
/** The line-clear cascade of `tetris_check_lines` (tetris.c:259-281). */
module Lines {
  import opened Board

  /** What a sweep leaves behind: the board, the score, and how many rows
      it cleared. */
  datatype Sweep = Sweep(cells: Cells, score: nat, cleared: nat)

  /** The points the source starts each sweep with (`p = 100`). */
  const FirstClearPoints: nat := 100

  function Pow2(k: nat): (r: nat)
    ensures r >= 1
  {
    if k == 0 then 1 else 2 * Pow2(k - 1)
  }

  /** Number of full rows among rows `0 .. n-1`. */
  function FullRows(cells: Cells, w: nat, h: nat, n: nat): nat
    requires Shaped(cells, w, h) && n <= h
  {
    if n == 0 then 0 else FullRows(cells, w, h, n - 1) + (if RowFull(cells, w, h, n - 1) then 1 else 0)
  }

  /** Compacting at a full row `l` moves rows `0 .. l-1` down one and puts an
      empty row on top, so the rows `0 .. n` afterwards hold as many full
      rows as rows `0 .. n-1` did before. */
  lemma {:induction false} FallKeepsFullRows(cells: Cells, w: nat, h: nat, l: nat, n: nat)
    requires Shaped(cells, w, h) && l < h && w >= 1 && n <= l
    ensures FullRows(Fall(cells, w, h, l), w, h, n + 1) == FullRows(cells, w, h, n)
    decreases n
  {
    var f := Fall(cells, w, h, l);
    if n == 0 {
      assert !RowFull(f, w, h, 0) by { assert f[0][0] == ' '; }
    } else {
      FallKeepsFullRows(cells, w, h, l, n - 1);
      assert RowFull(f, w, h, n) == RowFull(cells, w, h, n - 1) by {
        assert forall x :: 0 <= x < w ==> f[x][n] == cells[x][n - 1];
      }
    }
  }

  /** Rows below the compacted one keep their fullness. */
  lemma FallKeepsLowerRows(cells: Cells, w: nat, h: nat, l: nat)
    requires Shaped(cells, w, h) && l < h
    ensures forall y :: l < y < h ==> RowFull(Fall(cells, w, h, l), w, h, y) == RowFull(cells, w, h, y)
  {
  }

  /** Each clear removes `w >= 1` of at most `w * h` occupants, so a sweep
      clears at most `h` rows. */
  lemma ClearedBound(w: nat, h: nat, k: nat, occupants: nat)
    requires w >= 1 && w * k <= occupants <= w * h
    ensures k <= h
  {
  }

  /** One more clear of `w` cells on top of `k` earlier ones. */
  lemma ScaleStep(w: nat, k: nat, before: nat, between: nat, after: nat)
    requires between + w == before && after + w * k == between
    ensures after + w * (k + 1) == before
  {
  }

  /** Points for `k` clears in one sweep when the first is worth `p`: each
      clear adds the current points and then doubles them. */
  function CascadeScore(p: nat, k: nat): nat
    decreases k
  {
    if k == 0 then 0 else p + CascadeScore(2 * p, k - 1)
  }

  /** The doubling sum in closed form: `p * (2^k - 1)`. */
  lemma {:induction false} CascadeClosedForm(p: nat, k: nat)
    ensures CascadeScore(p, k) == p * (Pow2(k) - 1)
    decreases k
  {
    if k > 0 {
      CascadeClosedForm(2 * p, k - 1);
      assert 2 * p * (Pow2(k - 1) - 1) == p * Pow2(k) - 2 * p;
    }
  }

  /** The loop of `tetris_check_lines` from row `y` upward, with the next
      clear worth `p`. A full row scores `p`, doubles `p`, is compacted
      away, and the same row index is examined again; otherwise the scan
      moves up a row. Each clear removes `w` occupants, so the pair
      (occupants, row) decreases. */
  function CheckFrom(cells: Cells, w: nat, h: nat, y: int, p: nat, score: nat): (r: Sweep)
    requires Shaped(cells, w, h) && w >= 1 && -1 <= y < h
    requires forall l :: y < l < h ==> !RowFull(cells, w, h, l)
    ensures Shaped(r.cells, w, h)
    ensures forall l :: 0 <= l < h ==> !RowFull(r.cells, w, h, l)
    ensures r.cleared == FullRows(cells, w, h, y + 1)
    ensures r.score == score + CascadeScore(p, r.cleared)
    decreases Occupied(cells), y + 1
  {
    if y < 0 then Sweep(cells, score, 0)
    else if RowFull(cells, w, h, y) then
      var f := Fall(cells, w, h, y);
      FallFullRow(cells, w, h, y);
      FallKeepsFullRows(cells, w, h, y, y);
      FallKeepsLowerRows(cells, w, h, y);
      var r := CheckFrom(f, w, h, y, 2 * p, score + p);
      Sweep(r.cells, r.score, r.cleared + 1)
    else
      CheckFrom(cells, w, h, y - 1, p, score)
  }

  /** The rows the scan has already passed (below `y`) are never touched
      again: every compaction happens at or above the current row. */
  lemma {:induction false} CheckFromKeepsScannedRows(cells: Cells, w: nat, h: nat, y: int, p: nat, score: nat)
    requires Shaped(cells, w, h) && w >= 1 && -1 <= y < h
    requires forall l :: y < l < h ==> !RowFull(cells, w, h, l)
    ensures var r := CheckFrom(cells, w, h, y, p, score);
      forall x, l :: 0 <= x < w && y < l < h ==> r.cells[x][l] == cells[x][l]
    decreases Occupied(cells), y + 1
  {
    if y >= 0 {
      if RowFull(cells, w, h, y) {
        FallFullRow(cells, w, h, y);
        FallKeepsLowerRows(cells, w, h, y);
        CheckFromKeepsScannedRows(Fall(cells, w, h, y), w, h, y, 2 * p, score + p);
      } else {
        CheckFromKeepsScannedRows(cells, w, h, y - 1, p, score);
      }
    }
  }

  /** Each clear of the sweep removes exactly `w` occupants. */
  lemma {:induction false} CheckFromOccupied(cells: Cells, w: nat, h: nat, y: int, p: nat, score: nat)
    requires Shaped(cells, w, h) && w >= 1 && -1 <= y < h
    requires forall l :: y < l < h ==> !RowFull(cells, w, h, l)
    ensures var r := CheckFrom(cells, w, h, y, p, score);
      Occupied(r.cells) + w * r.cleared == Occupied(cells)
    decreases Occupied(cells), y + 1
  {
    if y >= 0 {
      if RowFull(cells, w, h, y) {
        FallFullRow(cells, w, h, y);
        FallKeepsLowerRows(cells, w, h, y);
        var f := Fall(cells, w, h, y);
        var rest := CheckFrom(f, w, h, y, 2 * p, score + p);
        CheckFromOccupied(f, w, h, y, 2 * p, score + p);
        ScaleStep(w, rest.cleared, Occupied(cells), Occupied(f), Occupied(rest.cells));
        var r := CheckFrom(cells, w, h, y, p, score);
        assert r.cells == rest.cells && r.cleared == rest.cleared + 1;
      } else {
        CheckFromOccupied(cells, w, h, y - 1, p, score);
      }
    }
  }

  /** The sweep only moves cells around and adds empty ones. */
  lemma {:induction false} CheckFromKeepsCatalog(cells: Cells, w: nat, h: nat, y: int, p: nat, score: nat)
    requires Shaped(cells, w, h) && w >= 1 && -1 <= y < h
    requires forall l :: y < l < h ==> !RowFull(cells, w, h, l)
    requires CatalogBoard(cells)
    ensures CatalogBoard(CheckFrom(cells, w, h, y, p, score).cells)
    decreases Occupied(cells), y + 1
  {
    if y >= 0 {
      if RowFull(cells, w, h, y) {
        FallFullRow(cells, w, h, y);
        FallKeepsLowerRows(cells, w, h, y);
        CheckFromKeepsCatalog(Fall(cells, w, h, y), w, h, y, 2 * p, score + p);
      } else {
        CheckFromKeepsCatalog(cells, w, h, y - 1, p, score);
      }
    }
  }

  /** `tetris_check_lines` on a board at least one column wide (with no
      columns every row is vacuously full and the source loops forever).
      It clears exactly the rows that are full on entry, scores
      `100 * (2^k - 1)` for `k` of them, and leaves no full row behind. */
  function CheckLines(cells: Cells, w: nat, h: nat, score: nat): (r: Sweep)
    requires Shaped(cells, w, h) && w >= 1
    ensures Shaped(r.cells, w, h)
    ensures forall l :: 0 <= l < h ==> !RowFull(r.cells, w, h, l)
    ensures r.cleared == FullRows(cells, w, h, h)
    ensures r.score == score + CascadeScore(FirstClearPoints, r.cleared)
    ensures r.score == score + FirstClearPoints * (Pow2(r.cleared) - 1)
    ensures r.cleared <= h
    ensures Occupied(r.cells) + w * r.cleared == Occupied(cells)
    ensures CatalogBoard(cells) ==> CatalogBoard(r.cells)
  {
    var r := CheckFrom(cells, w, h, h - 1, FirstClearPoints, score);
    assert CatalogBoard(cells) ==> CatalogBoard(r.cells) by {
      if CatalogBoard(cells) {
        CheckFromKeepsCatalog(cells, w, h, h - 1, FirstClearPoints, score);
      }
    }
    CheckFromOccupied(cells, w, h, h - 1, FirstClearPoints, score);
    CascadeClosedForm(FirstClearPoints, r.cleared);
    OccupiedBound(cells, w, h);
    ClearedBound(w, h, r.cleared, Occupied(cells));
    r
  }

  /** One to four rows cleared in one sweep score 100, 300, 700 and 1500. */
  lemma ClearScores()
    ensures CascadeScore(FirstClearPoints, 1) == 100
    ensures CascadeScore(FirstClearPoints, 2) == 300
    ensures CascadeScore(FirstClearPoints, 3) == 700
    ensures CascadeScore(FirstClearPoints, 4) == 1500
  {
  }

  /** A sweep over a board with no full row changes nothing. */
  lemma {:induction false} CheckFromNoFullRow(cells: Cells, w: nat, h: nat, y: int, p: nat, score: nat)
    requires Shaped(cells, w, h) && w >= 1 && -1 <= y < h
    requires forall l :: 0 <= l < h ==> !RowFull(cells, w, h, l)
    ensures CheckFrom(cells, w, h, y, p, score) == Sweep(cells, score, 0)
    decreases y + 1
  {
    if y >= 0 {
      CheckFromNoFullRow(cells, w, h, y - 1, p, score);
    }
  }

  /** Clearing lines is idempotent: a second sweep finds nothing to clear. */
  lemma CheckLinesIdempotent(cells: Cells, w: nat, h: nat, score: nat)
    requires Shaped(cells, w, h) && w >= 1
    ensures var r := CheckLines(cells, w, h, score);
      CheckLines(r.cells, w, h, r.score) == Sweep(r.cells, r.score, 0)
  {
    var r := CheckLines(cells, w, h, score);
    CheckFromNoFullRow(r.cells, w, h, h - 1, FirstClearPoints, r.score);
  }
}

=== FILE: results.dfy ===
/** The outcome of an engine step that may write outside the board. */
module Results {

  /** The source writes `game[X][Y]` without a bounds check; a write whose
      coordinates lie off the `w` x `h` grid is reported as this fault
      instead of being performed. */
  datatype Fault = OffBoard(x: int, y: int)

  datatype Result<+T> = Ok(value: T) | Err(fault: Fault)
}

=== FILE: session.dfy ===
/** The engine's part of `tetris_run` (tetris.c:300-349): the timed tick,
    the command `switch`, and the outer loop, with the keyboard and the
    timer replaced by an input sequence. */
module Session {
  import opened Board
  import opened Results
  import opened Lcg
  import opened Engine
  import Lines
  import Compaction
  import Levels

  /** What arrives during one pass of the outer loop: whether the step
      counter reached a gravity tick, and the keys waiting in the
      keyboard buffer, in arrival order. */
  datatype Input = Input(tick: bool, keys: seq<char>)

  /** The timed tick: gravity, then the line sweep (tetris.c:321-322). */
  function Tick(g: Game): (r: Result<Game>)
    requires Valid(g) && g.w >= 1
    ensures r.Err? <==> Gravity(g).Err?
    ensures r.Ok? ==> var fallen := Gravity(g).value;
      r.value == fallen.(board := r.value.board, score := r.value.score)
      && r.value.score == fallen.score + Lines.FirstClearPoints * (Lines.Pow2(Lines.FullRows(fallen.board, g.w, g.h, g.h)) - 1)
    ensures r.Ok? ==> Valid(r.value) && r.value.w == g.w && r.value.h == g.h
    ensures r.Ok? ==> r.value.score >= g.score
    ensures r.Ok? ==> forall l :: 0 <= l < g.h ==> !RowFull(r.value.board, g.w, g.h, l)
    ensures r.Ok? ==>
      Compaction.RowsUpTo(r.value.board, g.w, g.h, g.h)
      == Compaction.Compacted(Compaction.RowsUpTo(Gravity(g).value.board, g.w, g.h, g.h), g.w)
  {
    match Gravity(g)
    case Err(f) => Err(f)
    case Ok(fallen) => Ok(CheckLines(fallen))
  }

  /** One key of the command `switch` (tetris.c:328-346): 'q' and 'd' move
      left and right, 's' applies gravity without a line sweep, ' '
      rotates, anything else is ignored. No key changes the score. */
  function Command(g: Game, key: char): (r: Result<Game>)
    requires Valid(g)
    ensures r.Ok? ==> Valid(r.value) && r.value.w == g.w && r.value.h == g.h
    ensures r.Ok? ==> r.value.score == g.score && r.value.level == g.level
    ensures key != 's' ==> r.Ok? && r.value.board == g.board && r.value.seed == g.seed
    ensures key != 's' ==> r.value.gameover == g.gameover
    ensures key == 'q' ==> r == Ok(Move(g, -1))
    ensures key == 'd' ==> r == Ok(Move(g, 1))
    ensures key == 's' ==> r == Gravity(g)
    ensures key == ' ' ==> r == Ok(Engine.Rotate(g))
    ensures key !in {'q', 'd', 's', ' '} ==> r == Ok(g)
  {
    match key
    case 'q' => Ok(Move(g, -1))
    case 'd' => Ok(Move(g, 1))
    case 's' => Gravity(g)
    case ' ' => Ok(Engine.Rotate(g))
    case _ => Ok(g)
  }

  /** The inner `while ((cmd = getch2()) > 0)` loop: every waiting key is
      applied in order. It does not look at `gameover`, so keys after the
      game ends in the same pass are still applied. */
  function Drain(g: Game, keys: seq<char>): (r: Result<Game>)
    requires Valid(g)
    ensures r.Ok? ==> Valid(r.value) && r.value.w == g.w && r.value.h == g.h
    ensures r.Ok? ==> r.value.score == g.score && r.value.level == g.level
    ensures (forall i :: 0 <= i < |keys| ==> keys[i] != 's') ==>
      r.Ok? && r.value.board == g.board && r.value.seed == g.seed && r.value.gameover == g.gameover
    decreases |keys|
  {
    if |keys| == 0 then Ok(g)
    else
      match Command(g, keys[0])
      case Err(f) => Err(f)
      case Ok(next) => Drain(next, keys[1..])
  }

  /** A single waiting key is exactly that key's command. */
  lemma DrainOne(g: Game, key: char)
    requires Valid(g)
    ensures Drain(g, [key]) == Command(g, key)
  {
  }

  /** The keys are applied in arrival order: the last key acts on the state
      the earlier ones left, and a fault stops the pass. */
  lemma {:induction false} DrainSnoc(g: Game, keys: seq<char>, key: char)
    requires Valid(g)
    ensures Drain(g, keys + [key])
      == match Drain(g, keys) case Err(f) => Err(f) case Ok(d) => Command(d, key)
    decreases |keys|
  {
    if |keys| == 0 {
      DrainOne(g, key);
      assert keys + [key] == [key];
    } else {
      assert (keys + [key])[0] == keys[0];
      assert (keys + [key])[1..] == keys[1..] + [key];
      match Command(g, keys[0])
      case Err(f) =>
      case Ok(next) => DrainSnoc(next, keys[1..], key);
    }
  }

  /** One pass of the outer loop: the tick if due, then the waiting keys,
      then `tetris_level` (whose interval is not used). Afterwards the
      level matches the score, and neither score nor level went down. */
  function Frame(g: Game, input: Input): (r: Result<Game>)
    requires Valid(g) && g.w >= 1
    ensures r.Ok? ==> Valid(r.value) && r.value.w == g.w && r.value.h == g.h
    ensures r.Ok? ==> r.value.score >= g.score
    ensures r.Ok? ==> r.value.level == Levels.LevelFor(r.value.score)
    ensures r.Ok? && g.level <= Levels.LevelFor(g.score) ==> r.value.level >= g.level
    ensures input.tick && Tick(g).Err? ==> r == Tick(g)
    ensures input.tick && Tick(g).Ok? ==>
      r == match Drain(Tick(g).value, input.keys) case Err(f) => Err(f) case Ok(d) => Ok(SetLevel(d).0)
    ensures !input.tick ==>
      r == match Drain(g, input.keys) case Err(f) => Err(f) case Ok(d) => Ok(SetLevel(d).0)
  {
    var ticked := if input.tick then Tick(g) else Ok(g);
    match ticked
    case Err(f) => Err(f)
    case Ok(t) =>
      match Drain(t, input.keys)
      case Err(f) => Err(f)
      case Ok(d) =>
        Levels.LevelMonotone(g.score, d.score);
        Ok(SetLevel(d).0)
  }

  /** `while (!t.gameover)` over the given passes; the model stops when the
      passes run out. */
  function RunFrom(g: Game, inputs: seq<Input>): (r: Result<Game>)
    requires Valid(g) && (g.w >= 1 || g.gameover)
    ensures g.gameover ==> r == Ok(g)
    ensures r.Ok? ==> Valid(r.value) && r.value.w == g.w && r.value.h == g.h
    ensures r.Ok? ==> r.value.score >= g.score
    ensures r.Ok? && g.level <= Levels.LevelFor(g.score) ==> r.value.level >= g.level
    ensures r.Ok? && !r.value.gameover && |inputs| > 0 ==> r.value.level == Levels.LevelFor(r.value.score)
    decreases |inputs|
  {
    if g.gameover || |inputs| == 0 then Ok(g)
    else
      match Frame(g, inputs[0])
      case Err(f) => Err(f)
      case Ok(next) =>
        var r := RunFrom(next, inputs[1..]);
        assert r.Ok? && !r.value.gameover && |inputs[1..]| == 0 ==> r.value == next;
        r
  }

  /** Passes are run in order: the last pass acts on the state the earlier
      ones left, unless the game is over by then or a fault stopped it. */
  lemma {:induction false} RunFromSnoc(g: Game, inputs: seq<Input>, input: Input)
    requires Valid(g) && (g.w >= 1 || g.gameover)
    ensures RunFrom(g, inputs + [input])
      == match RunFrom(g, inputs)
         case Err(f) => Err(f)
         case Ok(m) => if m.gameover then Ok(m) else Frame(m, input)
    decreases |inputs|
  {
    if g.gameover {
    } else if |inputs| == 0 {
      assert inputs + [input] == [input];
      assert [input][1..] == [];
    } else {
      assert (inputs + [input])[0] == inputs[0];
      assert (inputs + [input])[1..] == inputs[1..] + [input];
      match Frame(g, inputs[0])
      case Err(f) =>
      case Ok(next) => RunFromSnoc(next, inputs[1..], input);
    }
  }

  /** The first spawn either ends the game or happens on a board at least
      one column wide, and it ends the game on a board narrower than every
      piece or with no rows. */
  lemma FirstSpawn(w: nat, h: nat, seed: Word)
    ensures var g := NewBlock(Init(w, h, seed));
      && g.w == w && g.h == h && Valid(g)
      && (g.w >= 1 || g.gameover)
      && ((w <= 1 || h == 0) ==> g.gameover)
  {
  }

  /** `tetris_run(w, h)` on the given passes: set up the board, spawn the
      first piece, and run. A board narrower than every piece, or with no
      rows, ends the game at the first spawn with nothing else done. */
  function Play(w: nat, h: nat, seed: Word, inputs: seq<Input>): (r: Result<Game>)
    ensures r.Ok? ==> Valid(r.value) && r.value.w == w && r.value.h == h
    ensures r.Ok? ==> r.value.w >= 1 || r.value.gameover
    ensures (w <= 1 || h == 0) ==> r == Ok(NewBlock(Init(w, h, seed))) && r.value.gameover
  {
    FirstSpawn(w, h, seed);
    RunFrom(NewBlock(Init(w, h, seed)), inputs)
  }

  /** With no passes, a run is just the first spawn on the fresh board. */
  lemma PlayNoInput(w: nat, h: nat, seed: Word)
    ensures Play(w, h, seed, []) == Ok(NewBlock(Init(w, h, seed)))
  {
  }

  /** A run over one more pass is the shorter run followed by that pass,
      unless the game is over by then or a fault stopped it. */
  lemma PlaySnoc(w: nat, h: nat, seed: Word, inputs: seq<Input>, input: Input)
    ensures Play(w, h, seed, inputs + [input])
      == match Play(w, h, seed, inputs)
         case Err(f) => Err(f)
         case Ok(m) => if m.gameover then Ok(m) else Frame(m, input)
  {
    FirstSpawn(w, h, seed);
    RunFromSnoc(NewBlock(Init(w, h, seed)), inputs, input);
  }
}

=== FILE: shapes.dfy ===
/** Piece shapes, the piece catalog and rotation (tetris.c:20-24, 55-58, 201-221). */
module Shapes {

  /** A piece: a bounding box of `w` columns and `h` rows whose cells are
      stored row by row, `cells[row][column]`; `' '` marks an empty cell,
      any other character is the symbol written into the board on lock.
      The source keeps the box in a fixed 5x5 array. */
  datatype Block = Block(cells: seq<seq<char>>, w: nat, h: nat)

  const Capacity: nat := 5

  /** The box is non-empty, fits the 5x5 array and every row has `w` cells. */
  ghost predicate WellFormed(b: Block)
  {
    && 1 <= b.w <= Capacity
    && 1 <= b.h <= Capacity
    && |b.cells| == b.h
    && forall r :: 0 <= r < b.h ==> |b.cells[r]| == b.w
  }

  /** The symbols the catalog uses for its six pieces. */
  const Symbols: set<char> := {'#', 'X', '@', 'O', '&', 'Z'}

  /** A cell is empty or carries a catalog symbol. */
  predicate CatalogCell(c: char)
  {
    c == ' ' || c in Symbols
  }

  /** Every cell of the box is empty or a catalog symbol (no '\0' padding
      of the 5x5 array is ever inside the box). */
  ghost predicate CatalogCells(b: Block)
    requires WellFormed(b)
  {
    forall r, c :: 0 <= r < b.h && 0 <= c < b.w ==> CatalogCell(b.cells[r][c])
  }

  /** Cell (column `c`, row `r`) of the box is occupied. */
  predicate Filled(b: Block, c: int, r: int)
  {
    0 <= r < |b.cells| && 0 <= c < |b.cells[r]| && b.cells[r][c] != ' '
  }

  /** The six catalog pieces, in table order. */
  const Blocks: seq<Block> := [
    Block(["##", "##"], 2, 2),
    Block([" X ", "XXX"], 3, 2),
    Block(["@@@@"], 4, 1),
    Block(["OO", "O ", "O "], 2, 3),
    Block(["&&", " &", " &"], 2, 3),
    Block(["ZZ ", " ZZ"], 3, 2)
  ]

  /** `TETRIS_PIECES`. */
  const PieceCount: nat := 6

  /** Catalog entry `i`; every entry is a well-formed box 2 to 4 wide and
      1 to 3 high, holding only catalog cells. */
  function Piece(i: nat): (b: Block)
    requires i < PieceCount
    ensures WellFormed(b) && CatalogCells(b)
    ensures 2 <= b.w <= 4 && b.h <= 3
  {
    Blocks[i]
  }

  /** C's `a / 2` on `int`, which truncates toward zero (Dafny's `/` is
      Euclidean): the remainder is 0 or 1 for a non-negative dividend and
      0 or -1 for a negative one. */
  function CHalf(a: int): (q: int)
    ensures a >= 0 ==> 0 <= a - 2 * q <= 1
    ensures a < 0 ==> -1 <= a - 2 * q <= 0
  {
    if a >= 0 then a / 2 else -((-a) / 2)
  }

  /** Truncating halving is odd in its argument, which Euclidean halving
      is not: `CHalf(-3) == -1` while `-3 / 2 == -2`. */
  lemma CHalfOdd(a: int)
    ensures CHalf(-a) == -CHalf(a)
    ensures CHalf(-3) == -1 && -3 / 2 == -2
  {
  }

  /** The quarter turn of `tetris_rotate`: the new box is `h` wide and `w`
      high and its row `r`, column `c` is the old row `h-1-c`, column `r`. */
  function Rotate(b: Block): (t: Block)
    requires WellFormed(b)
    ensures WellFormed(t)
    ensures t.w == b.h && t.h == b.w
    ensures forall r, c :: 0 <= r < t.h && 0 <= c < t.w ==> t.cells[r][c] == b.cells[b.h - 1 - c][r]
    ensures CatalogCells(b) ==> CatalogCells(t)
  {
    Block(seq(b.w, r requires 0 <= r < b.w => seq(b.h, c requires 0 <= c < b.h => b.cells[b.h - 1 - c][r])), b.h, b.w)
  }

  /** Two quarter turns are a half turn: the box is mirrored in both axes. */
  lemma HalfTurn(b: Block)
    requires WellFormed(b)
    ensures Rotate(Rotate(b)).w == b.w && Rotate(Rotate(b)).h == b.h
    ensures forall r, c :: 0 <= r < b.h && 0 <= c < b.w ==>
      Rotate(Rotate(b)).cells[r][c] == b.cells[b.h - 1 - r][b.w - 1 - c]
  {
  }

  /** Four quarter turns give back the original piece. */
  lemma FullTurn(b: Block)
    requires WellFormed(b)
    ensures Rotate(Rotate(Rotate(Rotate(b)))) == b
  {
    var h := Rotate(Rotate(b));
    HalfTurn(b);
    HalfTurn(h);
    var f := Rotate(Rotate(h));
    assert |f.cells| == |b.cells|;
    forall r | 0 <= r < b.h
      ensures f.cells[r] == b.cells[r]
    {
      assert |f.cells[r]| == |b.cells[r]|;
      forall c | 0 <= c < b.w
        ensures f.cells[r][c] == b.cells[r][c]
      {
        assert f.cells[r][c] == h.cells[h.h - 1 - r][h.w - 1 - c];
      }
    }
  }
}
